=== FILE: README.md ===
# CrptApi rate limiter — a Dafny model

`CrptApi` is a Java client that submits goods-turnover documents to the
Russian "Chestny ZNAK" marking registry. Submission is throttled by a token
bucket, `CrptApi.TokenBucket`. This project models that bucket as an immutable
state machine and proves its invariants. It also models the two small checks
around it: the `CrptApi` constructor's limit check, and the `Product`
constructor's choice of identifier. It also models the gate at the start of
`createDocument`, where the client asks the bucket for admission.

The bucket has four fields: `capacity`, `availableTokens`, `nanosPerToken`
(`nanosToGenerationToken` in the source) and `lastRefill`
(`lastRefillNanotime`). The clock (`System.nanoTime()`) becomes a `now`
parameter. The Java method is `synchronized`, so each `tryConsume` call is one
atomic transition from one bucket value to the next. A run of calls from
concurrent callers is then a sequence of such transitions (`BucketProperties.Run`).

Exceptions are results, not preconditions. A long division by zero is
`Failure(DivisionByZero)`. The two `IllegalArgumentException`s are
`Failure(InvalidLimit)` and `Failure(MissingIdentifier)`. Java's truncating `/`
is `JavaMath.JavaDiv`.

Modules: `Results` (errors, `Result`, `Option`), `JavaMath`, `TimeUnits`,
`TokenBucket` (the bucket), `BucketProperties` (multi-call properties),
`CrptApi` (constructor and gate), `Products` (the `Product` constructors).

## Where the code differs from a conventional token bucket

The model follows the code in each of these places.

- The refill threshold is `<=` (line 59). An elapsed time of exactly one
  interval earns nothing. A conventional bucket grants a permit exactly one
  interval after its last refill. This code refuses a call at that instant,
  for example 200 ms after a fresh 5-per-second bucket is drained at its
  creation time, and grants it one nanosecond later
  (`OneIntervalEarnsNothing`, `PastOneIntervalEarnsOne`). The same threshold is the one exception to
  drift-free refilling (`RefillBoundaryDelay`).
- The gate in `createDocument` (line 191) asks for `requestLimit` permits. That
  is the bucket's whole capacity, not one permit. A submission is therefore
  admitted only when the refilled bucket is full, and it empties the bucket
  (`CrptApi.AdmitSubmission`). However the client polls in between, no later
  submission is admitted until the clock is `capacity` whole intervals past
  the bucket's timestamp (`CrptApi.AdmissionsSpacedByWindow`). That timestamp
  can lag the admission by up to one interval. So with a limit of 1 per
  microsecond, two submissions can be admitted 2 ns apart
  (`CrptApi.AdmissionsCloseTogether`). The model keeps this behaviour
  and does not correct it.
- The constructor's check is `requestLimit >= 0` (line 25), not `> 0`. See
  Findings.
- A limit larger than the number of nanoseconds in one time unit gives a zero
  interval. The first refill after any time has passed then divides by zero
  (`CrptApi.ZeroIntervalFails`).

## Model

| member | source | states |
|---|---|---|
| JavaMath.JavaDiv | src/main/java/CrptApi.java:63 | Java's long `/`: the remainder is smaller than the divisor in magnitude and has the dividend's sign; for non-negative operands it agrees with floor division |
| JavaMath.Min | src/main/java/CrptApi.java:64 | `Math.min`: the result is one of the two arguments and no larger than either |
| TimeUnits.NanosPerUnit | src/main/java/CrptApi.java:40 | `timeUnit.toNanos(1)` is at least one nanosecond and exactly one only for `NANOSECONDS` |
| TokenBucket.NewBucket | src/main/java/CrptApi.java:39-44 | a new bucket is full (`capacity == availableTokens == permits`) and stamped with the current time. Its interval is the largest that fits `permits` times in one unit. Zero permits divide by zero. The bucket is well-configured exactly when `0 < permits <= toNanos(1)` |
| TokenBucket.Refill | src/main/java/CrptApi.java:56-66 | at most one elapsed interval leaves the bucket unchanged. Otherwise the timestamp moves forward by whole intervals to within one interval of `now`, never past it. Exactly the intervals moved over are credited, clamped to capacity. A zero interval divides by zero. A valid bucket stays valid |
| TokenBucket.TryConsume | src/main/java/CrptApi.java:46-54 | fails, with a division by zero, exactly when the refill does. Otherwise it grants exactly when the refilled bucket holds at least `permits` tokens. A grant removes exactly `permits` tokens. A refusal keeps the refilled bucket. With `0 <= permits`, `0 <= availableTokens <= capacity` is preserved and the timestamp never decreases |
| BucketProperties.FiredCredit | src/main/java/CrptApi.java:63-65 | a refill that fires moves the timestamp by `floor(elapsed / interval)` whole intervals |
| BucketProperties.RefillLeavesAtMostOneInterval | src/main/java/CrptApi.java:58-65 | after a refill of a valid bucket, at most one interval separates the timestamp from `now`, and the timestamp has not moved back |
| BucketProperties.RefillIdempotent | src/main/java/CrptApi.java:56-66 | refilling twice at the same time equals refilling once |
| BucketProperties.RefillNoDrift | src/main/java/CrptApi.java:63-65 | refilling at `t1 <= t2` and then at `t2` gives the same bucket as one refill at `t2`. Leftover sub-interval time is never lost, except at the exact-threshold case |
| BucketProperties.RefillBoundaryDelay | src/main/java/CrptApi.java:59-61 | the exact-threshold case: refills at 250 and 400 (200 ns interval) credit one token where a single refill at 400 credits two |
| BucketProperties.IdleSaturation | src/main/java/CrptApi.java:63-64 | after more than `capacity` intervals idle, the bucket is exactly full |
| BucketProperties.OneIntervalEarnsNothing | src/main/java/CrptApi.java:48-61 | an empty bucket called exactly one interval after its last refill refuses one permit and is unchanged |
| BucketProperties.PastOneIntervalEarnsOne | src/main/java/CrptApi.java:48-64 | one nanosecond after one interval, an empty bucket grants one permit |
| BucketProperties.NegativePermitsOverfill | src/main/java/CrptApi.java:48-51 | a negative permit count is granted and lifts a full bucket above capacity, so the bound needs `0 <= permits` |
| BucketProperties.Run | src/main/java/CrptApi.java:46-54 | any sequence of `tryConsume` calls with non-negative permits on a valid bucket succeeds, stays within `0..capacity`, grants a non-negative total and never moves the timestamp back |
| BucketProperties.RefillCreditBound | src/main/java/CrptApi.java:63-65 | a refill moves the timestamp by whole intervals only and credits at most one token per interval moved |
| BucketProperties.RunAccounting | src/main/java/CrptApi.java:46-66 | over a run, granted permits plus tokens left are at most the starting tokens plus one per whole interval the timestamp advanced |
| BucketProperties.RunTimestampBound | src/main/java/CrptApi.java:63-65 | the timestamp never passes the latest clock reading of the run |
| BucketProperties.NoOverselling | src/main/java/CrptApi.java:46-66 | whatever the order of calls, the permits granted up to time `T` are at most the starting tokens plus `floor((T - lastRefill) / interval)` |
| BucketProperties.ExactGrantsAtFixedTime | src/main/java/CrptApi.java:46-53 | with the clock standing still, `k` single-permit calls grant exactly `min(k, tokens after refill)` and remove exactly that many tokens. The calls are identical, so this holds for any interleaving of `k` concurrent callers |
| BucketProperties.FreshBucketGrantsCapacity | src/main/java/CrptApi.java:39-53 | a fresh bucket of `permits` tokens grants exactly `permits` single-permit calls at its creation time and refuses the next one |
| CrptApi.NewApiAsWritten | src/main/java/CrptApi.java:24-31 | the constructor as written: a negative limit is an invalid argument, and zero divides by zero. A positive limit builds exactly the bucket `new TokenBucket(timeUnit, requestLimit)` builds: full, of that size, stamped `now` |
| CrptApi.NewApi | src/main/java/CrptApi.java:24-31 | the corrected constructor: it fails, always as an invalid argument, exactly for a non-positive limit. Otherwise it builds the same bucket as the code as written |
| CrptApi.ZeroLimitDivergence | src/main/java/CrptApi.java:25-40 | the two constructors agree on every limit but zero, where the code as written fails with a division by zero |
| CrptApi.AdmitSubmission | src/main/java/CrptApi.java:191 | fails, with a division by zero, exactly when the refill does. On a valid client, a submission is admitted exactly when the refilled bucket is full. Admission leaves the refilled bucket with zero tokens and nothing else changed. A refusal keeps the refilled bucket. The client stays valid |
| CrptApi.GateRunGrantsWholeLimits | src/main/java/CrptApi.java:191 | a run of gate calls, each asking for `requestLimit` permits, grants either nothing or at least one whole limit |
| CrptApi.AdmissionsSpacedByWindow | src/main/java/CrptApi.java:191 | after an admission at `t1`, any later gate calls up to time `T`, in any order and with any refusals between them, admit nothing unless `T` is at least `capacity` intervals past the timestamp the admission left. That timestamp is at most one interval behind `t1` |
| CrptApi.AdmissionsCloseTogether | src/main/java/CrptApi.java:191 | with one request per microsecond, submissions at 1999 ns and 2001 ns are both admitted: the timestamp the first admission leaves is 1000, almost one interval behind it |
| CrptApi.ZeroIntervalFails | src/main/java/CrptApi.java:40-63 | two requests per nanosecond give a zero interval, and the gate then fails with a division by zero one nanosecond later |
| Products.IndexOfNonWhitespace | src/main/java/CrptApi.java:94-96 | finds the first non-whitespace character: everything before it is whitespace |
| Products.IsBlank | src/main/java/CrptApi.java:94-96 | `String.isBlank` holds exactly when every character is whitespace in the sense of `Character.isWhitespace` |
| Products.NewProduct | src/main/java/CrptApi.java:91-101 | keeps the unit code whenever it is non-blank. Otherwise it keeps the packaging code if that is non-blank. Otherwise it fails. It never keeps both |
| Products.ConstructedProductIdentifiedOnce | src/main/java/CrptApi.java:94-100 | every constructed product has exactly one identifier, non-blank and taken from its arguments |
| Products.NewCertifiedProduct | src/main/java/CrptApi.java:103-109 | the seven-argument constructor builds the four-argument constructor's product (same date, code and identifier choice, and the same failure) and adds only the three certificate details |

## Left out

- TokenBucket.Refill: says nothing about a negative interval beyond totality. A negative interval needs a `TokenBucket` built directly with negative permits, which `CrptApi` never does.
- TokenBucket.TryConsume: the capacity bound is stated for `0 <= permits` only. `NegativePermitsOverfill` shows it fails otherwise. The gate only passes a positive limit.
- Java `long` overflow of the clock arithmetic and of `tokens * interval`: the model uses unbounded integers. A difference of two `nanoTime` readings overflows only after about 292 years.
- The threads and the `synchronized` lock: each call is one atomic step, and any interleaving is a sequence of calls.
- `System.nanoTime()`: replaced by the `now` parameter. The model does not assume that successive readings increase. A reading behind the timestamp makes refill a no-op.
- The HTTP request (URL, connection, headers, output stream, response code), JSON serialisation through Jackson, Base64, and the SHA256withRSA signing in `signSHA256RSA`. These are network I/O and foreign library calls. The model stops at the admission decision.
- `Logger`, `UUID.randomUUID()` and `new Date()` in `Document`. These are global or non-deterministic side effects. The `Document` constructor and `addProduct` only assign fields, and the `Product` setters only assign one field each.
- `null` arguments: a `null` `timeUnit` (a `NullPointerException` at line 40), `null` string arguments to `Product` (a `NullPointerException` from `isBlank`), and `null` `Date` arguments. The model has no `null` for these: a time unit is always one of the seven units, strings are non-null, and a `Date` is an `int` count of milliseconds.
- A mutable class wrapper around the bucket: the functional transitions carry the same behaviour.

## Findings

| source | as written | input that shows it | evidently intended | confidence | as-written member | corrected member |
|---|---|---|---|---|---|---|
| src/main/java/CrptApi.java:25-28 | the check `requestLimit >= 0` lets a zero limit through, though its message says the value must be greater than 0 | `new CrptApi(unit, 0)`: the bucket's constructor divides by zero and throws `ArithmeticException` instead of `IllegalArgumentException` | reject every limit `<= 0` as an invalid argument | medium, not executed | CrptApi.NewApiAsWritten (with CrptApi.ZeroLimitDivergence) | CrptApi.NewApi |

=== FILE: bucket_properties.dfy ===
/** Properties of the token bucket that relate several calls: refills at one
    clock reading are idempotent, splitting time over several refills loses no
    credit, an idle bucket saturates at capacity, a run of calls never grants
    more than the refill rate allows, and with the clock standing still exactly
    the available tokens are granted. */
module BucketProperties {
  import opened Results
  import opened JavaMath
  import opened TimeUnits
  import opened TokenBucket

  /** A fired refill moves the timestamp by the whole intervals in the elapsed time. */
  lemma FiredCredit(b: Bucket, now: int)
    requires 0 < b.nanosPerToken < now - b.lastRefill
    ensures Refill(b, now).Success?
    ensures Refill(b, now).value.lastRefill - b.lastRefill
            == ((now - b.lastRefill) / b.nanosPerToken) * b.nanosPerToken
    ensures (Refill(b, now).value.lastRefill - b.lastRefill) / b.nanosPerToken
            == (now - b.lastRefill) / b.nanosPerToken
  {
    var n := b.nanosPerToken;
    var moved := Refill(b, now).value.lastRefill - b.lastRefill;
    assert moved == (moved / n) * n + moved % n;
    DivUnique(now - b.lastRefill, n, moved / n, now - b.lastRefill - moved);
  }

  /** After any successful refill of a well-configured bucket, at most one
      interval separates its timestamp from the clock. */
  lemma RefillLeavesAtMostOneInterval(b: Bucket, now: int)
    requires Valid(b)
    ensures Refill(b, now).Success?
    ensures now - Refill(b, now).value.lastRefill <= b.nanosPerToken
    ensures b.lastRefill <= Refill(b, now).value.lastRefill
  {
  }

  /** Refilling twice at the same clock reading is the same as refilling once. */
  lemma RefillIdempotent(b: Bucket, now: int)
    requires Valid(b)
    ensures Refill(Refill(b, now).value, now) == Refill(b, now)
  {
    RefillLeavesAtMostOneInterval(b, now);
  }

  lemma SameResidue(x: int, y: int, n: int)
    requires 0 < n && x % n == y % n && -n < x - y < n
    ensures x == y
  {
    assert x == (x / n) * n + x % n;
    assert y == (y / n) * n + y % n;
    assert (x / n - y / n) * n == x - y;
    if x / n > y / n {
      MulAtLeast(x / n - y / n, n);
    } else if x / n < y / n {
      MulAtLeast(y / n - x / n, n);
    }
  }

  lemma MinAbsorbs(c: int, a: int, k: int)
    requires 0 <= k
    ensures Min(c, Min(c, a) + k) == Min(c, a + k)
  {
  }

  /** Whole-interval moves add up: two moves by whole intervals are one move by
      their sum. */
  lemma WholeIntervalsAdd(l0: int, l1: int, l2: int, n: int)
    requires 0 < n && (l1 - l0) % n == 0 && (l2 - l1) % n == 0
    ensures (l2 - l0) % n == 0
    ensures (l2 - l0) / n == (l1 - l0) / n + (l2 - l1) / n
  {
    assert l1 - l0 == ((l1 - l0) / n) * n;
    assert l2 - l1 == ((l2 - l1) / n) * n;
    DivShift(l2 - l1, (l1 - l0) / n, n);
    assert l2 - l0 == (l2 - l1) + ((l1 - l0) / n) * n;
  }

  /** The timestamp a fired refill lands on is the unique one a whole number of
      intervals after the old timestamp and less than one interval before `now`. */
  lemma LandingIsUnique(l0: int, x: int, y: int, now: int, n: int)
    requires 0 < n && (x - l0) % n == 0 && (y - l0) % n == 0
    requires 0 <= now - x < n && 0 <= now - y < n
    ensures x == y
  {
    SameResidue(x - l0, y - l0, n);
  }

  /** No drift: refilling at `t1` and then at `t2` leaves the bucket exactly as a
      single refill at `t2` would, because a refill keeps the unused part of an
      interval. The only exception is the `<=` threshold: when the first refill
      fired and the second lands exactly one interval after it, the second earns
      nothing yet (see `RefillBoundaryDelay`). */
  lemma RefillNoDrift(b: Bucket, t1: int, t2: int)
    requires Valid(b) && t1 <= t2
    requires Refill(b, t1).value.lastRefill == b.lastRefill
          || t2 - Refill(b, t1).value.lastRefill != b.nanosPerToken
    ensures Refill(Refill(b, t1).value, t2) == Refill(b, t2)
  {
    if t1 - b.lastRefill > b.nanosPerToken {
      var m := Refill(b, t1).value;
      if t2 - m.lastRefill <= b.nanosPerToken {
        NoDriftSecondIdle(b, m, t1, t2);
      } else {
        NoDriftSecondFires(b, m, t1, t2);
      }
    }
  }

  lemma NoDriftSecondIdle(b: Bucket, m: Bucket, t1: int, t2: int)
    requires Valid(b) && t1 <= t2 && b.nanosPerToken < t1 - b.lastRefill
    requires m == Refill(b, t1).value
    requires t2 - m.lastRefill < b.nanosPerToken
    ensures Refill(m, t2) == Refill(b, t2)
  {
    var s := Refill(b, t2).value;
    LandingIsUnique(b.lastRefill, s.lastRefill, m.lastRefill, t2, b.nanosPerToken);
  }

  lemma NoDriftSecondFires(b: Bucket, m: Bucket, t1: int, t2: int)
    requires Valid(b) && t1 <= t2 && b.nanosPerToken < t1 - b.lastRefill
    requires m == Refill(b, t1).value
    requires b.nanosPerToken < t2 - m.lastRefill
    ensures Refill(m, t2) == Refill(b, t2)
  {
    var n := b.nanosPerToken;
    var s := Refill(b, t2).value;
    var r := Refill(m, t2).value;
    WholeIntervalsAdd(b.lastRefill, m.lastRefill, r.lastRefill, n);
    LandingIsUnique(b.lastRefill, s.lastRefill, r.lastRefill, t2, n);
    MinAbsorbs(b.capacity, b.availableTokens + (m.lastRefill - b.lastRefill) / n,
               (r.lastRefill - m.lastRefill) / n);
  }

  /** The exception to `RefillNoDrift`: with a 200 ns interval, refilling at 250
      and again at 400 credits one token, while a single refill at 400 credits two
      (the second refill lands exactly one interval after the first). */
  lemma RefillBoundaryDelay()
    ensures var b := Bucket(5, 0, 200, 0);
      && Refill(Refill(b, 250).value, 400) == Success(Bucket(5, 1, 200, 200))
      && Refill(b, 400) == Success(Bucket(5, 2, 200, 400))
  {
  }

  /** Idle saturation: after more than `capacity` intervals without a call, the
      bucket is full (and never more than full). */
  lemma IdleSaturation(b: Bucket, now: int)
    requires Valid(b) && now - b.lastRefill > b.capacity * b.nanosPerToken
    ensures Refill(b, now).Success?
    ensures Refill(b, now).value.availableTokens == b.capacity
  {
    var n := b.nanosPerToken;
    MulAtLeast(b.capacity, n);
    FiredCredit(b, now);
    DivAtLeast(now - b.lastRefill, b.capacity, n);
  }

  /** Replenishment at the threshold: an empty bucket called exactly one interval
      after its last refill still refuses a single permit. */
  lemma OneIntervalEarnsNothing(b: Bucket)
    requires Valid(b) && b.availableTokens == 0
    ensures TryConsume(b, b.lastRefill + b.nanosPerToken, 1) == Success(Attempt(false, b))
  {
  }

  /** Replenishment just past the threshold: one nanosecond later it grants it. */
  lemma PastOneIntervalEarnsOne(b: Bucket)
    requires Valid(b) && b.availableTokens == 0
    ensures TryConsume(b, b.lastRefill + b.nanosPerToken + 1, 1).Success?
    ensures TryConsume(b, b.lastRefill + b.nanosPerToken + 1, 1).value.admitted
  {
    var now := b.lastRefill + b.nanosPerToken + 1;
    FiredCredit(b, now);
    DivAtLeast(now - b.lastRefill, 1, b.nanosPerToken);
  }

  /** A negative permit count is granted and pushes the count above capacity:
      the bound needs `0 <= permits`. */
  lemma NegativePermitsOverfill(b: Bucket, now: int, permits: int)
    requires Valid(b) && b.availableTokens == b.capacity
    requires now - b.lastRefill <= b.nanosPerToken && permits < 0
    ensures TryConsume(b, now, permits).Success?
    ensures TryConsume(b, now, permits).value.admitted
    ensures TryConsume(b, now, permits).value.next.availableTokens > b.capacity
  {
  }

  /** One `tryConsume(permits)` call issued at clock reading `at`. */
  datatype Call = Call(at: int, permits: int)

  /** The permits granted over a run of calls, and the bucket at its end. */
  datatype Outcome = Outcome(granted: int, final: Bucket)

  predicate NonNegativePermits(calls: seq<Call>) {
    forall i :: 0 <= i < |calls| ==> 0 <= calls[i].permits
  }

  /** The calls applied one after another, each as one atomic `tryConsume`
      (any interleaving of concurrent callers is such a sequence). */
  function Run(b: Bucket, calls: seq<Call>): (r: Result<Outcome>)
    ensures Valid(b) && NonNegativePermits(calls) ==>
      && r.Success?
      && Valid(r.value.final)
      && 0 <= r.value.granted
      && b.lastRefill <= r.value.final.lastRefill
      && r.value.final.capacity == b.capacity
      && r.value.final.nanosPerToken == b.nanosPerToken
    decreases |calls|
  {
    if |calls| == 0 then
      Success(Outcome(0, b))
    else
      match TryConsume(b, calls[0].at, calls[0].permits)
      case Failure(e) => Failure(e)
      case Success(attempt) =>
        assert NonNegativePermits(calls) ==> NonNegativePermits(calls[1..]) by {
          if NonNegativePermits(calls) {
            forall i | 0 <= i < |calls[1..]|
              ensures 0 <= calls[1..][i].permits
            {
              assert calls[1..][i] == calls[i + 1];
            }
          }
        }
        match Run(attempt.next, calls[1..])
        case Failure(e) => Failure(e)
        case Success(rest) =>
          var here := if attempt.admitted then calls[0].permits else 0;
          Success(Outcome(here + rest.granted, rest.final))
  }

  /** One step of a run: the first call, then the rest of the run from the
      bucket it leaves. */
  lemma RunStep(b: Bucket, calls: seq<Call>)
    requires Valid(b) && NonNegativePermits(calls) && 0 < |calls|
    ensures TryConsume(b, calls[0].at, calls[0].permits).Success?
    ensures NonNegativePermits(calls[1..])
    ensures var attempt := TryConsume(b, calls[0].at, calls[0].permits).value;
      && Run(attempt.next, calls[1..]).Success?
      && Run(b, calls).value.final == Run(attempt.next, calls[1..]).value.final
      && Run(b, calls).value.granted
         == (if attempt.admitted then calls[0].permits else 0)
            + Run(attempt.next, calls[1..]).value.granted
  {
    assert 0 <= calls[0].permits;
    forall i | 0 <= i < |calls[1..]|
      ensures 0 <= calls[1..][i].permits
    {
      assert calls[1..][i] == calls[i + 1];
    }
  }

  /** The timestamp of a refilled bucket moves by whole intervals only. */
  lemma RefillCreditBound(b: Bucket, now: int)
    requires Valid(b)
    ensures Refill(b, now).Success?
    ensures (Refill(b, now).value.lastRefill - b.lastRefill) % b.nanosPerToken == 0
    ensures Refill(b, now).value.availableTokens
            <= b.availableTokens + (Refill(b, now).value.lastRefill - b.lastRefill) / b.nanosPerToken
  {
  }

  /** Rate accounting from `b` to the end `o` of some calls: the timestamp moved
      by whole intervals, and the permits granted plus the tokens left are at
      most the tokens at the start plus one per interval moved. */
  ghost predicate Accounted(b: Bucket, o: Outcome)
    requires 0 < b.nanosPerToken
  {
    && (o.final.lastRefill - b.lastRefill) % b.nanosPerToken == 0
    && o.granted + o.final.availableTokens
       <= b.availableTokens + (o.final.lastRefill - b.lastRefill) / b.nanosPerToken
  }

  /** Accounting for one call. */
  lemma StepAccounting(b: Bucket, now: int, permits: int)
    requires Valid(b) && 0 <= permits
    ensures TryConsume(b, now, permits).Success?
    ensures var attempt := TryConsume(b, now, permits).value;
      && Valid(attempt.next)
      && attempt.next.nanosPerToken == b.nanosPerToken
      && Accounted(b, Outcome(if attempt.admitted then permits else 0, attempt.next))
  {
    RefillCreditBound(b, now);
  }

  /** Accounting composes along a run. */
  lemma AccountedThen(b: Bucket, here: int, mid: Bucket, o: Outcome)
    requires 0 < b.nanosPerToken && mid.nanosPerToken == b.nanosPerToken
    requires Accounted(b, Outcome(here, mid)) && Accounted(mid, o)
    ensures Accounted(b, Outcome(here + o.granted, o.final))
  {
    WholeIntervalsAdd(b.lastRefill, mid.lastRefill, o.final.lastRefill, b.nanosPerToken);
  }

  /** Rate accounting over a run: the permits granted plus the tokens left never
      exceed the tokens at the start plus one per whole interval the timestamp
      advanced, and the timestamp advances by whole intervals only. */
  lemma RunAccounting(b: Bucket, calls: seq<Call>)
    requires Valid(b) && NonNegativePermits(calls)
    ensures Run(b, calls).Success?
    ensures (Run(b, calls).value.final.lastRefill - b.lastRefill) % b.nanosPerToken == 0
    ensures Run(b, calls).value.granted + Run(b, calls).value.final.availableTokens
            <= b.availableTokens
               + (Run(b, calls).value.final.lastRefill - b.lastRefill) / b.nanosPerToken
  {
    RunAccounted(b, calls);
  }

  lemma {:induction false} RunAccounted(b: Bucket, calls: seq<Call>)
    requires Valid(b) && NonNegativePermits(calls)
    ensures Run(b, calls).Success? && Accounted(b, Run(b, calls).value)
    decreases |calls|
  {
    if |calls| > 0 {
      var c := calls[0];
      RunStep(b, calls);
      StepAccounting(b, c.at, c.permits);
      var attempt := TryConsume(b, c.at, c.permits).value;
      RunAccounted(attempt.next, calls[1..]);
      var rest := Run(attempt.next, calls[1..]).value;
      AccountedThen(b, if attempt.admitted then c.permits else 0, attempt.next, rest);
    }
  }

  /** The timestamp never passes the latest clock reading seen. */
  lemma {:induction false} RunTimestampBound(b: Bucket, calls: seq<Call>, horizon: int)
    requires Valid(b) && NonNegativePermits(calls)
    requires b.lastRefill <= horizon
    requires forall i :: 0 <= i < |calls| ==> calls[i].at <= horizon
    ensures Run(b, calls).Success?
    ensures Run(b, calls).value.final.lastRefill <= horizon
    decreases |calls|
  {
    if |calls| > 0 {
      var attempt := TryConsume(b, calls[0].at, calls[0].permits).value;
      assert NonNegativePermits(calls[1..]) by {
        forall i | 0 <= i < |calls[1..]|
          ensures 0 <= calls[1..][i].permits
        {
          assert calls[1..][i] == calls[i + 1];
        }
      }
      assert forall i :: 0 <= i < |calls[1..]| ==> calls[1..][i].at <= horizon by {
        forall i | 0 <= i < |calls[1..]|
          ensures calls[1..][i].at <= horizon
        {
          assert calls[1..][i] == calls[i + 1];
        }
      }
      RunTimestampBound(attempt.next, calls[1..], horizon);
    }
  }

  /** No overselling: whatever the order and timing of the calls (and so whatever
      the interleaving of concurrent callers), the permits granted up to clock
      reading `horizon` never exceed the tokens available at the start plus one
      per whole interval elapsed. */
  lemma NoOverselling(b: Bucket, calls: seq<Call>, horizon: int)
    requires Valid(b) && NonNegativePermits(calls)
    requires b.lastRefill <= horizon
    requires forall i :: 0 <= i < |calls| ==> calls[i].at <= horizon
    ensures Run(b, calls).Success?
    ensures Run(b, calls).value.granted
            <= b.availableTokens + (horizon - b.lastRefill) / b.nanosPerToken
  {
    RunAccounting(b, calls);
    RunTimestampBound(b, calls, horizon);
    DivMonotone(Run(b, calls).value.final.lastRefill - b.lastRefill, horizon - b.lastRefill,
                b.nanosPerToken);
  }

  /** `k` calls of `tryConsume(1)`, all at clock reading `now`. */
  function Repeated(now: int, k: nat): (calls: seq<Call>)
    ensures |calls| == k
    ensures forall i :: 0 <= i < k ==> calls[i] == Call(now, 1)
  {
    if k == 0 then [] else [Call(now, 1)] + Repeated(now, k - 1)
  }

  /** Exact granting with the clock standing still: of `k` single-permit calls,
      exactly as many succeed as the refilled bucket holds tokens (and no more
      than `k`), and the tokens granted are the tokens removed from the refilled
      bucket. */
  lemma {:induction false} ExactGrantsAtFixedTime(b: Bucket, now: int, k: nat)
    requires Valid(b)
    ensures Refill(b, now).Success? && Run(b, Repeated(now, k)).Success?
    ensures var refilled := Refill(b, now).value;
      && Run(b, Repeated(now, k)).value.granted == Min(k, refilled.availableTokens)
      && (0 < k ==> Run(b, Repeated(now, k)).value.final
                    == refilled.(availableTokens := refilled.availableTokens - Min(k, refilled.availableTokens)))
    decreases k
  {
    var calls := Repeated(now, k);
    assert NonNegativePermits(calls);
    if k > 0 {
      RunStep(b, calls);
      RefillIdempotent(b, now);
      var refilled := Refill(b, now).value;
      var attempt := TryConsume(b, now, 1).value;
      assert calls[0] == Call(now, 1);
      assert calls[1..] == Repeated(now, k - 1);
      assert Refill(attempt.next, now) == Success(attempt.next) by {
        RefillLeavesAtMostOneInterval(b, now);
      }
      ExactGrantsAtFixedTime(attempt.next, now, k - 1);
      var a := refilled.availableTokens;
      if attempt.admitted {
        assert attempt.next == refilled.(availableTokens := a - 1);
        assert 1 + Min(k - 1, a - 1) == Min(k, a);
      } else {
        assert a == 0;
      }
    }
  }

  /** A freshly built bucket, called without the clock advancing, grants exactly
      `permits` single-permit calls and refuses the next one. */
  lemma FreshBucketGrantsCapacity(unit: TimeUnit, permits: int, now: int)
    requires 0 < permits <= NanosPerUnit(unit)
    ensures NewBucket(unit, permits, now).Success?
    ensures var b := NewBucket(unit, permits, now).value;
      && Run(b, Repeated(now, permits)).Success?
      && Run(b, Repeated(now, permits)).value.granted == permits
      && Run(b, Repeated(now, permits)).value.final.availableTokens == 0
      && TryConsume(Run(b, Repeated(now, permits)).value.final, now, 1).Success?
      && !TryConsume(Run(b, Repeated(now, permits)).value.final, now, 1).value.admitted
  {
    var b := NewBucket(unit, permits, now).value;
    ExactGrantsAtFixedTime(b, now, permits);
  }
}

=== FILE: crpt_api.dfy ===
/** The `CrptApi` client: its constructor's limit check and the admission gate
    at the start of `createDocument`.

    The gate asks the bucket for `requestLimit` permits, which is the bucket's
    whole capacity, so a submission is admitted only when the refilled bucket is
    full and it empties the bucket. This is the behaviour of the code and is
    modelled as such. */
module CrptApi {
  import opened Results
  import opened JavaMath
  import opened TimeUnits
  import opened TokenBucket
  import opened BucketProperties

  datatype Api = Api(requestLimit: int, bucket: Bucket)

  /** A usable client: a well-configured bucket sized by the request limit. */
  predicate Valid(api: Api) {
    TokenBucket.Valid(api.bucket) && api.bucket.capacity == api.requestLimit
  }

  /** `new CrptApi(timeUnit, requestLimit)` exactly as written: the check lets
      `0` through, and the bucket's constructor then divides by zero. */
  function NewApiAsWritten(unit: TimeUnit, requestLimit: int, now: int): (r: Result<Api>)
    ensures r.Success? <==> 0 < requestLimit
    ensures requestLimit < 0 ==> r == Failure(InvalidLimit)
    ensures requestLimit == 0 ==> r == Failure(DivisionByZero)
    ensures r.Success? ==>
      && r.value.requestLimit == requestLimit
      && r.value.bucket.availableTokens == requestLimit
      && r.value.bucket.lastRefill == now
      && (Valid(r.value) <==> requestLimit <= NanosPerUnit(unit))
    // the client's bucket is the one `new TokenBucket(timeUnit, requestLimit)` builds
    ensures r.Success? ==> NewBucket(unit, requestLimit, now) == Success(r.value.bucket)
  {
    if requestLimit >= 0 then
      match NewBucket(unit, requestLimit, now)
      case Failure(e) => Failure(e)
      case Success(b) => Success(Api(requestLimit, b))
    else
      Failure(InvalidLimit)
  }

  /** The constructor with the check its error message describes ("the value
      must be greater than 0"): a non-positive limit is rejected as an invalid
      argument before any bucket is built. */
  function NewApi(unit: TimeUnit, requestLimit: int, now: int): (r: Result<Api>)
    ensures r.Failure? <==> requestLimit <= 0
    ensures r.Failure? ==> r.error == InvalidLimit
    ensures r.Success? ==>
      && r.value.requestLimit == requestLimit
      && r.value.bucket.availableTokens == requestLimit
      && r.value.bucket.lastRefill == now
      && (Valid(r.value) <==> requestLimit <= NanosPerUnit(unit))
    ensures r.Success? ==> NewBucket(unit, requestLimit, now) == Success(r.value.bucket)
  {
    if requestLimit > 0 then
      match NewBucket(unit, requestLimit, now)
      case Failure(e) => Failure(e)
      case Success(b) => Success(Api(requestLimit, b))
    else
      Failure(InvalidLimit)
  }

  /** The two constructors differ only on a zero limit, where the code as
      written fails with a division by zero instead of an invalid argument. */
  lemma ZeroLimitDivergence(unit: TimeUnit, requestLimit: int, now: int)
    ensures requestLimit != 0 ==>
      NewApiAsWritten(unit, requestLimit, now) == NewApi(unit, requestLimit, now)
    ensures NewApiAsWritten(unit, 0, now) == Failure(DivisionByZero)
    ensures NewApi(unit, 0, now) == Failure(InvalidLimit)
  {
  }

  /** The outcome of the gate: whether the submission may proceed to the
      network, and the client state afterwards. */
  datatype Gated = Gated(admitted: bool, next: Api)

  /** The gate of `createDocument` at clock reading `now`:
      `tokenBucket.tryConsume(requestLimit)`. */
  function AdmitSubmission(api: Api, now: int): (r: Result<Gated>)
    ensures r.Failure? <==> Refill(api.bucket, now).Failure?
    ensures r.Failure? ==> r.error == DivisionByZero
    ensures r.Success? ==> r.value.next.requestLimit == api.requestLimit
    ensures Valid(api) ==>
      && r.Success?
      && Valid(r.value.next)
      && (r.value.admitted <==> Refill(api.bucket, now).value.availableTokens == api.bucket.capacity)
      && (r.value.admitted ==>
            r.value.next.bucket == Refill(api.bucket, now).value.(availableTokens := 0))
      && (!r.value.admitted ==> r.value.next.bucket == Refill(api.bucket, now).value)
  {
    match TryConsume(api.bucket, now, api.requestLimit)
    case Failure(e) => Failure(e)
    case Success(attempt) => Success(Gated(attempt.admitted, api.(bucket := attempt.next)))
  }

  /** Gate calls as bucket calls: every one asks for the whole request limit. */
  predicate GateCalls(calls: seq<Call>, requestLimit: int) {
    forall i :: 0 <= i < |calls| ==> calls[i].permits == requestLimit
  }

  /** A run of gate calls grants whole request limits: nothing, or at least one
      full limit. */
  lemma {:induction false} GateRunGrantsWholeLimits(b: Bucket, calls: seq<Call>, requestLimit: int)
    requires TokenBucket.Valid(b) && 0 <= requestLimit && GateCalls(calls, requestLimit)
    ensures NonNegativePermits(calls)
    ensures Run(b, calls).Success?
    ensures Run(b, calls).value.granted == 0 || requestLimit <= Run(b, calls).value.granted
    decreases |calls|
  {
    if |calls| > 0 {
      RunStep(b, calls);
      var attempt := TryConsume(b, calls[0].at, calls[0].permits).value;
      assert GateCalls(calls[1..], requestLimit) by {
        forall i | 0 <= i < |calls[1..]|
          ensures calls[1..][i].permits == requestLimit
        {
          assert calls[1..][i] == calls[i + 1];
        }
      }
      GateRunGrantsWholeLimits(attempt.next, calls[1..], requestLimit);
    }
  }

  /** Spacing of admissions: after an admission at `t1`, any later gate calls
      up to clock reading `horizon` (admitted or refused, in any order) admit
      nothing unless `horizon` is at least `capacity` whole intervals past the
      timestamp the admission left. That timestamp can lag `t1` by up to one
      interval, so the spacing measured from `t1` itself can be one interval
      shorter (see `AdmissionsCloseTogether`). */
  lemma AdmissionsSpacedByWindow(api: Api, t1: int, calls: seq<Call>, horizon: int)
    requires Valid(api) && api.bucket.lastRefill <= t1 <= horizon
    requires AdmitSubmission(api, t1).value.admitted
    requires GateCalls(calls, api.requestLimit)
    requires forall i :: 0 <= i < |calls| ==> calls[i].at <= horizon
    requires 0 < Run(AdmitSubmission(api, t1).value.next.bucket, calls).value.granted
    ensures var after := AdmitSubmission(api, t1).value.next.bucket;
      && t1 - api.bucket.nanosPerToken <= after.lastRefill
      && after.lastRefill + api.bucket.capacity * api.bucket.nanosPerToken <= horizon
  {
    var after := AdmitSubmission(api, t1).value.next.bucket;
    var n := after.nanosPerToken;
    RefillLeavesAtMostOneInterval(api.bucket, t1);
    assert after.lastRefill <= t1;
    GateRunGrantsWholeLimits(after, calls, api.requestLimit);
    NoOverselling(after, calls, horizon);
    assert after.capacity <= (horizon - after.lastRefill) / n;
    DivAtLeast(horizon - after.lastRefill, after.capacity, n);
  }

  /** With one request per microsecond, submissions at 1999 ns and 2001 ns are
      both admitted: the first refill leaves the timestamp at 1000, so the
      second call finds one whole interval (and a nanosecond) already elapsed. */
  lemma AdmissionsCloseTogether()
    ensures NewApiAsWritten(Microseconds, 1, 0).Success?
    ensures var api := NewApiAsWritten(Microseconds, 1, 0).value;
      && AdmitSubmission(api, 1999).Success?
      && AdmitSubmission(api, 1999).value.admitted
      && AdmitSubmission(api, 1999).value.next.bucket.lastRefill == 1000
      && AdmitSubmission(AdmitSubmission(api, 1999).value.next, 2001).Success?
      && AdmitSubmission(AdmitSubmission(api, 1999).value.next, 2001).value.admitted
  {
  }

  /** A limit above the number of nanoseconds in one unit gives a zero token
      interval, and the first refill after any time has passed divides by zero:
      for example two requests per nanosecond. */
  lemma ZeroIntervalFails()
    ensures NewApiAsWritten(Nanoseconds, 2, 0).Success?
    ensures NewApiAsWritten(Nanoseconds, 2, 0).value.bucket.nanosPerToken == 0
    ensures AdmitSubmission(NewApiAsWritten(Nanoseconds, 2, 0).value, 1) == Failure(DivisionByZero)
  {
  }
}

=== FILE: java_math.dfy ===
/** Java `long` arithmetic used by the token bucket, over unbounded integers.

    Java's `/` truncates toward zero, whereas Dafny's `/` is Euclidean; `JavaDiv`
    writes the Java operator out. The lemmas below are the division facts the
    bucket proofs rely on. */
module JavaMath {

  function Abs(x: int): (r: nat)
    ensures r == x || r == -x
  {
    if x < 0 then -x else x
  }

  /** `Math.min(long, long)`. */
  function Min(a: int, b: int): (r: int)
    ensures r <= a && r <= b
    ensures r == a || r == b
  {
    if a <= b then a else b
  }

  /** Java's `a / b` on `long`: the quotient truncated toward zero.
      The remainder `a - q * b` is smaller than the divisor in magnitude and
      never has the opposite sign of the dividend. */
  function JavaDiv(a: int, b: int): (q: int)
    requires b != 0
    ensures Abs(a - q * b) < Abs(b)
    ensures 0 <= a ==> 0 <= a - q * b
    ensures a <= 0 ==> a - q * b <= 0
    ensures 0 <= a && 0 < b ==> q == a / b
  {
    JavaDivRemainder(a, b);
    if (a < 0) == (b < 0) then Abs(a) / Abs(b) else -(Abs(a) / Abs(b))
  }

  /** The remainder left by the truncated quotient is the Euclidean remainder of
      the magnitudes, carrying the dividend's sign. */
  lemma JavaDivRemainder(a: int, b: int)
    requires b != 0
    ensures var q := if (a < 0) == (b < 0) then Abs(a) / Abs(b) else -(Abs(a) / Abs(b));
      && Abs(a - q * b) < Abs(b)
      && (0 <= a ==> 0 <= a - q * b)
      && (a <= 0 ==> a - q * b <= 0)
      && (0 <= a && 0 < b ==> q == a / b)
  {
    var q := if (a < 0) == (b < 0) then Abs(a) / Abs(b) else -(Abs(a) / Abs(b));
    JavaDivRemainderSigned(a, b);
    var rem := a - q * b;
    assert rem == (if a < 0 then -(Abs(a) % Abs(b)) else Abs(a) % Abs(b));
  }

  lemma JavaDivRemainderSigned(a: int, b: int)
    requires b != 0
    ensures var q := if (a < 0) == (b < 0) then Abs(a) / Abs(b) else -(Abs(a) / Abs(b));
      a - q * b == (if a < 0 then -(Abs(a) % Abs(b)) else Abs(a) % Abs(b))
  {
    var m, d := Abs(a), Abs(b);
    var q0, r := m / d, m % d;
    var p := q0 * d;
    assert m == p + r;
    assert q0 * b == (if b < 0 then -p else p) by {
      if b < 0 {
        assert b == -d;
        MulNegate(q0, d);
      }
    }
    if (a < 0) != (b < 0) {
      MulNegate(q0, b);
      assert -q0 * b == -(q0 * b);
    }
  }

  lemma MulNegate(x: int, y: int)
    ensures x * -y == -(x * y)
    ensures -x * y == -(x * y)
  {
  }

  /** Euclidean division is characterised by its quotient and remainder. */
  lemma DivUnique(a: int, n: int, q: int, r: int)
    requires 0 < n && 0 <= r < n
    requires a == q * n + r
    ensures a / n == q && a % n == r
  {
    var q', r' := a / n, a % n;
    assert a == q' * n + r';
    assert (q - q') * n == r' - r;
    if q > q' {
      assert (q - q') * n >= n by { MulAtLeast(q - q', n); }
    } else if q < q' {
      assert (q' - q) * n >= n by { MulAtLeast(q' - q, n); }
    }
  }

  lemma MulAtLeast(k: int, n: int)
    requires 1 <= k && 0 < n
    ensures k * n >= n
  {
    assert k * n == (k - 1) * n + n;
  }

  /** A whole multiple of `n` divides back to its factor and leaves no remainder. */
  lemma MultipleDiv(k: int, n: int)
    requires 0 < n
    ensures (k * n) / n == k && (k * n) % n == 0
  {
    DivUnique(k * n, n, k, 0);
  }

  /** Adding whole multiples of `n` shifts the quotient and keeps the remainder. */
  lemma DivShift(x: int, k: int, n: int)
    requires 0 < n
    ensures (x + k * n) / n == x / n + k
    ensures (x + k * n) % n == x % n
  {
    assert x == (x / n) * n + x % n;
    assert x + k * n == (x / n + k) * n + x % n;
    DivUnique(x + k * n, n, x / n + k, x % n);
  }

  lemma DivMonotone(x: int, y: int, n: int)
    requires 0 < n && x <= y
    ensures x / n <= y / n
  {
    assert x == (x / n) * n + x % n;
    assert y == (y / n) * n + y % n;
    if x / n > y / n {
      assert (x / n - y / n) * n >= n by { MulAtLeast(x / n - y / n, n); }
    }
  }

  /** The quotient reaches `c` exactly when the dividend reaches `c` whole multiples. */
  lemma DivAtLeast(x: int, c: int, n: int)
    requires 0 < n
    ensures x / n >= c <==> x >= c * n
  {
    DivShift(x - c * n, c, n);
    assert (x - c * n) + c * n == x;
    if x >= c * n {
      DivMonotone(0, x - c * n, n);
    } else {
      assert x - c * n == ((x - c * n) / n) * n + (x - c * n) % n;
    }
  }
}

=== FILE: product.dfy ===
/** `CrptApi.Product`: a line of a document, identified either by its unit
    code (`uit_code`) or by its packaging code (`uitu_code`). The constructor
    keeps exactly one of the two, preferring the unit code, and refuses a
    product with neither. */
module Products {
  import opened Results

  datatype CertificateType = ConformityCertificate | ConformityDeclaration

  /** The fields of `Product`; `java.util.Date` values are milliseconds since the
      epoch, and a field the constructor leaves unset is `None` (Java `null`). */
  datatype Product = Product(
    productDate: int,
    tnvedCode: string,
    uitCode: Option<string>,
    uituCode: Option<string>,
    certificateDocument: Option<CertificateType>,
    certificateDocumentDate: Option<int>,
    certificateDocumentNumber: Option<string>)

  /** `Character.isWhitespace`: the Unicode space, line and paragraph separators
      other than the non-breaking spaces U+00A0, U+2007 and U+202F, plus the
      control characters U+0009..U+000D and U+001C..U+001F. */
  predicate IsWhitespace(c: char) {
    || '\t' <= c <= '\r'
    || '\U{1C}' <= c <= '\U{1F}'
    || c == ' '
    || c == '\U{1680}'
    || '\U{2000}' <= c <= '\U{2006}'
    || '\U{2008}' <= c <= '\U{200A}'
    || c == '\U{2028}' || c == '\U{2029}'
    || c == '\U{205F}'
    || c == '\U{3000}'
  }

  /** The index of the first non-whitespace character at or after `from`, or
      `|s|` if there is none. */
  function IndexOfNonWhitespace(s: string, from: nat): (i: nat)
    requires from <= |s|
    ensures from <= i <= |s|
    ensures forall k :: from <= k < i ==> IsWhitespace(s[k])
    ensures i < |s| ==> !IsWhitespace(s[i])
    decreases |s| - from
  {
    if from == |s| || !IsWhitespace(s[from]) then from else IndexOfNonWhitespace(s, from + 1)
  }

  /** `String.isBlank`: the string is empty or holds only whitespace. */
  function IsBlank(s: string): (blank: bool)
    ensures blank <==> forall k :: 0 <= k < |s| ==> IsWhitespace(s[k])
  {
    IndexOfNonWhitespace(s, 0) == |s|
  }

  /** `new Product(productDate, tnvedCode, uitCode, uituCode)`. */
  function NewProduct(productDate: int, tnvedCode: string, uitCode: string, uituCode: string)
    : (r: Result<Product>)
    ensures r.Success? <==> !IsBlank(uitCode) || !IsBlank(uituCode)
    ensures r.Failure? ==> r.error == MissingIdentifier
    ensures r.Success? ==>
      && r.value.productDate == productDate
      && r.value.tnvedCode == tnvedCode
      && r.value.certificateDocument.None?
      && r.value.certificateDocumentDate.None?
      && r.value.certificateDocumentNumber.None?
    // the unit code wins whenever it is present
    ensures !IsBlank(uitCode) ==> r.Success? && r.value.uitCode == Some(uitCode) && r.value.uituCode.None?
    // the packaging code is used only when the unit code is blank
    ensures IsBlank(uitCode) && !IsBlank(uituCode) ==>
      r.Success? && r.value.uituCode == Some(uituCode) && r.value.uitCode.None?
  {
    if !IsBlank(uitCode) then
      Success(Product(productDate, tnvedCode, Some(uitCode), None, None, None, None))
    else if !IsBlank(uituCode) then
      Success(Product(productDate, tnvedCode, None, Some(uituCode), None, None, None))
    else
      Failure(MissingIdentifier)
  }

  /** A built product carries exactly one identifier, and it is not blank. */
  predicate IdentifiedOnce(p: Product) {
    match (p.uitCode, p.uituCode)
    case (Some(code), None) => !IsBlank(code)
    case (None, Some(code)) => !IsBlank(code)
    case _ => false
  }

  /** Every product the constructor builds is identified exactly once, by one of
      the codes it was given. */
  lemma ConstructedProductIdentifiedOnce(productDate: int, tnvedCode: string, uitCode: string, uituCode: string)
    requires NewProduct(productDate, tnvedCode, uitCode, uituCode).Success?
    ensures IdentifiedOnce(NewProduct(productDate, tnvedCode, uitCode, uituCode).value)
    ensures var p := NewProduct(productDate, tnvedCode, uitCode, uituCode).value;
      p.uitCode == Some(uitCode) || p.uituCode == Some(uituCode)
  {
  }

  /** `new Product(...)` with certificate details: the four-argument constructor,
      then the three certificate fields. */
  function NewCertifiedProduct(productDate: int, tnvedCode: string, uitCode: string, uituCode: string,
                               certificateType: Option<CertificateType>,
                               certificateDocumentDate: Option<int>,
                               certificateDocumentNumber: Option<string>)
    : (r: Result<Product>)
    ensures r.Success? <==> NewProduct(productDate, tnvedCode, uitCode, uituCode).Success?
    ensures r.Failure? ==> r.error == MissingIdentifier
    ensures r.Success? ==>
      var plain := NewProduct(productDate, tnvedCode, uitCode, uituCode).value;
      r.value == plain.(certificateDocument := certificateType,
                        certificateDocumentDate := certificateDocumentDate,
                        certificateDocumentNumber := certificateDocumentNumber)
  {
    match NewProduct(productDate, tnvedCode, uitCode, uituCode)
    case Failure(e) => Failure(e)
    case Success(p) =>
      Success(p.(certificateDocument := certificateType,
                 certificateDocumentDate := certificateDocumentDate,
                 certificateDocumentNumber := certificateDocumentNumber))
  }
}

=== FILE: results.dfy ===
/** Failure-carrying wrappers shared by the model.

    `Error` names the exceptions the modelled Java code can raise; `Result` is
    returned by every operation that can raise one, so that the exception is an
    explicit outcome rather than something a precondition rules out. */
module Results {

  /** The exceptions of the modelled code. */
  datatype Error =
    /** `IllegalArgumentException` from the `CrptApi` constructor's limit check. */
    | InvalidLimit
    /** `ArithmeticException` ("/ by zero") from a long division by zero. */
    | DivisionByZero
    /** `IllegalArgumentException` from the `Product` constructor when both identifiers are blank. */
    | MissingIdentifier

  datatype Result<+T> = Success(value: T) | Failure(error: Error)

  /** A Java reference field that may hold `null`. */
  datatype Option<+T> = None | Some(value: T)
}

=== FILE: time_units.dfy ===
/** `java.util.concurrent.TimeUnit`, reduced to what the limiter reads from it:
    the length of one unit in nanoseconds (`timeUnit.toNanos(1)`). */
module TimeUnits {

  datatype TimeUnit = Nanoseconds | Microseconds | Milliseconds | Seconds | Minutes | Hours | Days

  /** `unit.toNanos(1)`: one unit of time in nanoseconds. */
  function NanosPerUnit(unit: TimeUnit): (n: int)
    ensures 1 <= n <= 86_400_000_000_000
    ensures unit == Nanoseconds <==> n == 1
  {
    match unit
    case Nanoseconds => 1
    case Microseconds => 1_000
    case Milliseconds => 1_000_000
    case Seconds => 1_000_000_000
    case Minutes => 60_000_000_000
    case Hours => 3_600_000_000_000
    case Days => 86_400_000_000_000
  }
}

=== FILE: token_bucket.dfy ===
/** The `CrptApi.TokenBucket` rate limiter.

    A bucket holds up to `capacity` tokens and earns one more every
    `nanosPerToken` nanoseconds. The clock (`System.nanoTime()`) is a `now`
    parameter, and each call is one atomic transition from a bucket value to
    the next (the Java method is `synchronized`). */
module TokenBucket {
  import opened Results
  import opened JavaMath
  import opened TimeUnits

  /** The four fields of `TokenBucket`. */
  datatype Bucket = Bucket(
    capacity: int,
    availableTokens: int,
    nanosPerToken: int,
    lastRefill: int)

  /** The outcome of one `tryConsume`: whether it granted, and the bucket afterwards. */
  datatype Attempt = Attempt(admitted: bool, next: Bucket)

  /** The invariant a well-configured bucket keeps: a positive capacity, a token
      count within it, and a positive token interval (so that refilling never
      divides by zero). */
  predicate Valid(b: Bucket) {
    && 0 < b.capacity
    && 0 <= b.availableTokens <= b.capacity
    && 0 < b.nanosPerToken
  }

  /** `new TokenBucket(timeUnit, permits)` at clock reading `now`: a full bucket
      whose interval is one time unit divided evenly among the permits. */
  function NewBucket(unit: TimeUnit, permits: int, now: int): (r: Result<Bucket>)
    ensures r.Failure? <==> permits == 0
    ensures r.Failure? ==> r.error == DivisionByZero
    ensures r.Success? ==>
      && r.value.capacity == permits
      && r.value.availableTokens == permits
      && r.value.lastRefill == now
    ensures 0 < permits ==>
      && r.Success?
      && r.value.nanosPerToken * permits <= NanosPerUnit(unit)
      && NanosPerUnit(unit) < (r.value.nanosPerToken + 1) * permits
    ensures r.Success? ==> (Valid(r.value) <==> 0 < permits <= NanosPerUnit(unit))
  {
    if permits == 0 then
      Failure(DivisionByZero)
    else
      var nanos := JavaDiv(NanosPerUnit(unit), permits);
      assert 0 < permits ==> (0 < nanos <==> permits <= NanosPerUnit(unit)) by {
        if 0 < permits {
          DivAtLeast(NanosPerUnit(unit), 1, permits);
        }
      }
      Success(Bucket(permits, permits, nanos, now))
  }

  /** `refill()` at clock reading `now`.

      Credits one token per whole interval elapsed since `lastRefill`, clamped
      to `capacity`, and moves `lastRefill` forward by exactly those whole
      intervals, so the unused remainder of an interval is kept for the next
      call. An elapsed time of at most one interval earns nothing. */
  function Refill(b: Bucket, now: int): (r: Result<Bucket>)
    ensures r.Failure? <==> b.nanosPerToken == 0 && now - b.lastRefill > 0
    ensures r.Failure? ==> r.error == DivisionByZero
    ensures r.Success? ==>
      && r.value.capacity == b.capacity
      && r.value.nanosPerToken == b.nanosPerToken
    // at most one interval elapsed: nothing changes
    ensures now - b.lastRefill <= b.nanosPerToken ==> r == Success(b)
    // a refill that fires credits exactly the whole intervals the timestamp moves over
    ensures 0 < b.nanosPerToken < now - b.lastRefill ==>
      && r.Success?
      && b.lastRefill < r.value.lastRefill <= now
      && 0 <= now - r.value.lastRefill < b.nanosPerToken
      && (r.value.lastRefill - b.lastRefill) % b.nanosPerToken == 0
      && r.value.availableTokens
         == Min(b.capacity, b.availableTokens + (r.value.lastRefill - b.lastRefill) / b.nanosPerToken)
    ensures Valid(b) ==> r.Success? && Valid(r.value)
  {
    var elapsed := now - b.lastRefill;
    if elapsed <= b.nanosPerToken then
      Success(b)
    else if b.nanosPerToken == 0 then
      Failure(DivisionByZero)
    else
      var earned := JavaDiv(elapsed, b.nanosPerToken);
      assert 0 < b.nanosPerToken ==> WholeIntervals(elapsed, b.nanosPerToken, earned) by {
        if 0 < b.nanosPerToken {
          EarnedIntervals(elapsed, b.nanosPerToken);
        }
      }
      Success(b.(availableTokens := Min(b.capacity, b.availableTokens + earned),
                 lastRefill := b.lastRefill + earned * b.nanosPerToken))
  }

  /** `earned` is the number of whole intervals of length `n` in `elapsed`,
      and the leftover is less than one interval. */
  ghost predicate WholeIntervals(elapsed: int, n: int, earned: int)
    requires 0 < n
  {
    && 1 <= earned
    && (earned * n) / n == earned
    && (earned * n) % n == 0
    && 0 <= elapsed - earned * n < n
  }

  lemma EarnedIntervals(elapsed: int, n: int)
    requires 0 < n < elapsed
    ensures WholeIntervals(elapsed, n, JavaDiv(elapsed, n))
  {
    var earned := JavaDiv(elapsed, n);
    assert earned == elapsed / n;
    DivAtLeast(elapsed, 1, n);
    MultipleDiv(earned, n);
  }

  /** `tryConsume(permits)` at clock reading `now`: refill, then grant the
      permits if the refilled bucket holds at least that many tokens. A refused
      attempt keeps the refill's effect; a granted one also removes the permits. */
  function TryConsume(b: Bucket, now: int, permits: int): (r: Result<Attempt>)
    ensures r.Failure? <==> Refill(b, now).Failure?
    ensures r.Failure? ==> r.error == DivisionByZero
    ensures r.Success? ==>
      var refilled := Refill(b, now).value;
      && (r.value.admitted <==> permits <= refilled.availableTokens)
      && (r.value.admitted ==>
            r.value.next == refilled.(availableTokens := refilled.availableTokens - permits))
      && (!r.value.admitted ==> r.value.next == refilled)
    ensures Valid(b) && 0 <= permits ==> r.Success? && Valid(r.value.next)
    ensures r.Success? ==>
      && r.value.next.capacity == b.capacity
      && r.value.next.nanosPerToken == b.nanosPerToken
    ensures r.Success? && 0 <= b.nanosPerToken ==> b.lastRefill <= r.value.next.lastRefill
  {
    match Refill(b, now)
    case Failure(e) => Failure(e)
    case Success(refilled) =>
      if refilled.availableTokens < permits then
        Success(Attempt(false, refilled))
      else
        Success(Attempt(true, refilled.(availableTokens := refilled.availableTokens - permits)))
  }
}
